=== FILE: README.md ===
# Sitemap updater, modelled in Dafny

This project models `SitemapUpdater`, a JavaScript class that keeps a site's
`sitemap.xml` in step with the HTML files in a directory. The class has four
parts, and each one is modelled as pure functions:

- **Scan** (`scanHTMLFiles`). A directory listing becomes a page list. A fixed
  home record comes first. Every other `.html` entry follows in listing order,
  with a priority and change frequency picked by a chain of substring tests on
  its name.
- **Serialize** (`generateSitemapXML`). The page list becomes a sitemaps.org
  0.9 `urlset` document. It has one `<url>` element per record, with the fields
  loc, lastmod, changefreq and priority in that order. Values are inserted
  verbatim.
- **Merge** (`updateSitemap`). An optional new page is appended unless its
  supplied url is already present. Missing fields get defaults. A corrected
  variant tests the url the new record would actually get.
- **addPage**. It builds the new page's url from a file name. `index.html` maps
  to the bare origin.

Modules, one per part:

- `Text` (text.dfy) holds `startsWith`, `endsWith` and `includes`.
- `Pages` (pages.dfy) holds the page record, the configuration constants and
  the classifier. The classifier has a rule-table reference definition.
- `Scanner` (scanner.dfy) models the scan.
- `SitemapXml` (sitemap_xml.dfy) holds the serializer. It also holds a parser
  for the same layout, used to state what the document carries.
- `Updater` (updater.dfy) models merge, update (as written and corrected) and `addPage`.
- `Scenarios` (scenarios.dfy) proves the outcome for small concrete directories.
- `Wrappers` (wrappers.dfy) holds `Option`.

Conventions:

- The class reads the directory itself and asks the filesystem for modification
  dates. The model takes both as parameters instead: the listing is a
  `seq<string>` and the date lookup is an oracle `lastmod: string -> string`.
- The origin (`BaseUrl`, hard-coded in the constructor) is a parameter `base`.
- JavaScript falsiness on the new page's fields is modelled as "the empty
  string means absent".
- The listing order is an input, and `Scanner.ScanFollowsListing` proves the
  scan keeps it.
- The home url is `base + "/"`, with a trailing slash, as lines 24 and 147
  build it. Line 116 fills a missing url of the new page, as well as priority
  and changefreq.

## Model

| member | source | states |
|---|---|---|
| Text.IncludesIffOccurs | sitemap-updater.js:37-46 | the substring test used by the classifier is true exactly when the marker occurs at some position of the file name |
| Pages.Classify | sitemap-updater.js:33-48 | every name gets priority 0.7, 0.8 or 0.9 and change frequency weekly or monthly |
| Pages.ClassifyIsFirstMatch | sitemap-updater.js:36-48 | the if-else chain equals "outcome of the first matching row of the rule table, else 0.8 monthly" for every name, so precedence is first-match |
| Pages.WeeklyIffBlogDecides | sitemap-updater.js:34-45 | changefreq is weekly exactly when the blog rule is the first rule that matches; otherwise it is monthly |
| Pages.LowestPriorityIffBlogDecides | sitemap-updater.js:43-44 | priority 0.7 is given exactly to the names the blog rule decides |
| Pages.TopPriorityIff | sitemap-updater.js:37-48 | priority 0.9 goes exactly to service names, and to portfolio names that no about, contact or blog rule claims |
| Pages.ContactoTestIsRedundant | sitemap-updater.js:41 | any name containing `contacto` already contains `contact`, so the second test of that rule never changes the outcome |
| Pages.ServiceOutranksBlog | sitemap-updater.js:37-45 | `blog-servicio.html` is classified 0.9 monthly: the service rule comes before the blog rule |
| Scanner.Scan | sitemap-updater.js:22-29 | the scan result is never empty, and its first record is the home record (url `base + "/"`, `index.html`, 1.0, weekly) whatever the listing holds |
| Scanner.ListedPages | sitemap-updater.js:20 | every entry the filter keeps ends in `.html` and is not `index.html` |
| Scanner.KeptPositions | sitemap-updater.js:20 | the kept listing positions are strictly increasing; every one holds an `.html` name other than `index.html`; every such position is among them |
| Scanner.ListedPagesAtKeptPositions | sitemap-updater.js:19-20 | the filtered listing has one entry per kept position, equal to the listing's entry there, in order |
| Scanner.ScanFollowsListing | sitemap-updater.js:19-58 | the scan has 1 + (number of kept entries) records; record k+1 is the k-th kept entry, in listing order, located at `base + "/" + file` and classified by its name |
| Scanner.UrlPath | sitemap-updater.js:32 | the path always starts with `/`, and for every name other than `index.html` the rest of it is the name |
| Scanner.FilePage | sitemap-updater.js:31-55 | a record keeps its file name and gets a class the classifier can produce; a kept entry is located at `base + "/" + file`, so the `index.html` branch of line 32 is dead after the filter |
| Scanner.ListedPagesMembers | sitemap-updater.js:20 | a name survives the filter exactly when it is in the listing, ends in `.html` and is not `index.html` |
| Scanner.ScanUrlsUnique | sitemap-updater.js:22-56 | when the listing names each entry once, no two scanned records share a url |
| Scanner.ScanLocations | sitemap-updater.js:22-56 | the location `base + "/" + name` is already in the scan exactly when `name` is empty (the home location) or a kept entry of the listing |
| SitemapXml.GenerateSitemapXml | sitemap-updater.js:83-98 | the document starts with the XML declaration and the `urlset` line with the sitemaps.org 0.9 namespace, ends with `</urlset>\n`, and is exactly those for an empty page list |
| SitemapXml.UrlBlock | sitemap-updater.js:89-94 | each record's element opens with the `  <url>` line and ends with the `  </url>` line |
| SitemapXml.Blocks | sitemap-updater.js:87-95 | an empty page list writes no `<url>` text; otherwise the text opens with a `<url>` element |
| SitemapXml.ElementRoundTrip | sitemap-updater.js:90-93 | a child line `<tag>value</tag>` reads back as the value and the rest of the text when the value holds no `<` |
| SitemapXml.BlockRoundTrip | sitemap-updater.js:89-94 | a `<url>` element reads back as its four fields in the order loc, lastmod, changefreq, priority, when no value holds `<` |
| SitemapXml.BlocksRoundTrip | sitemap-updater.js:87-97 | the sequence of `<url>` elements followed by the closing line reads back as the entries it was written from, in order, when no value holds `<` |
| SitemapXml.SitemapRoundTrip | sitemap-updater.js:83-98 | parsing the generated document yields exactly the entries of the records, in record order, when no inserted value holds `<` |
| SitemapXml.OneUrlElementPerRecord | sitemap-updater.js:87-95 | the document has exactly one `<url>` element per record, carrying the record's url, the oracle's date for its file, its changefreq and its priority, when no value holds `<` |
| Updater.EffectiveUrl | sitemap-updater.js:116 | the appended record's location is never empty; it is the supplied url when one is given, and `base + "/" + filename` when the url is empty |
| Updater.Completed | sitemap-updater.js:115-120 | the appended record keeps the file name and is located at the effective url; an empty priority becomes `0.8` and an empty changefreq `monthly`, and a given value is kept; no field is empty |
| Updater.MergeAsWritten | sitemap-updater.js:112-121 | the merge as written: the list is unchanged exactly when no page is given or the SUPPLIED url is present; otherwise exactly one record is appended, earlier records untouched, defaults filled in |
| Updater.Merge | sitemap-updater.js:112-121 | the corrected merge: same shape, but the test uses the url the record would actually get; it keeps urls unique |
| Updater.MergeAgreesWhenUrlSupplied | sitemap-updater.js:113-116 | when the new page has a url, the written merge and the corrected merge coincide |
| Updater.MergeAsWrittenKeepsUrlsUnique | sitemap-updater.js:113 | when the new page has a url, the written merge keeps urls unique |
| Updater.MergeAsWrittenDuplicatesFallback | sitemap-updater.js:113-116 | when the new page has no url and names a file already scanned, the written merge produces two records with the same url |
| Updater.UpdateSitemap | sitemap-updater.js:106-125 | `updateSitemap` as written: the home record leads; the scan result is a prefix; the new page is appended, with defaults, exactly when it is given and its SUPPLIED url is absent; urls stay unique for a listing without repeats when no page or a page with a url is given; the document reads back as the page list when no value holds `<` |
| Updater.UpdateSitemapCorrected | sitemap-updater.js:106-125 | the update with the corrected merge: same shape, but the duplicate test uses the url the record would get, and urls stay unique for every new page |
| Updater.UpdateSitemapAgreesWhenUrlSupplied | sitemap-updater.js:113-116 | when the new page has a url, the update as written and the corrected update give the same page list and document |
| Updater.UpdateSitemapDuplicatesFallback | sitemap-updater.js:109-121 | `updateSitemap` with a url-less page whose file is already in the directory returns a page list in which two records share a url |
| Updater.AddPageUrl | sitemap-updater.js:146-148 | the url starts with `base + "/"`, and it is the home record's url exactly when the name is `index.html` or empty |
| Updater.AddPage | sitemap-updater.js:145-155 | `addPage` keeps urls unique for a listing without repeats, and a record it appends carries the url built from the name and the name itself |
| Updater.AddPageEffect | sitemap-updater.js:145-155 | `addPage` leaves the scan unchanged exactly when the name is `index.html`, empty, or a kept listing entry; otherwise it appends one record at `base + "/" + filename` with the given or default priority and changefreq |
| Updater.AddHomePageIsNoop | sitemap-updater.js:146-148 | `addPage("index.html", ...)` yields exactly the scan result, because its url is the home record's |
| Updater.AddExistingPageKeepsCount | sitemap-updater.js:145-155 | adding a page file already in the directory leaves the record count unchanged |
| Scenarios.HomeOtherAndBlogDirectory | sitemap-updater.js:19-56 | `index.html`, any other page file and `blog.html` give three records in that order, the blog at 0.7 weekly |
| Scenarios.HomeContactAndBlogDirectory | sitemap-updater.js:19-56 | `index.html`, `contacto.html` and `blog.html` give the home record, the contact page at 0.8 monthly and the blog at 0.7 weekly, in that order |
| Scenarios.NoPagesScan | sitemap-updater.js:19-29 | a listing with no page file besides the home page scans to the home record alone |
| Scenarios.NoPagesDocument | sitemap-updater.js:83-98 | such a listing yields a document with exactly one `<url>` element, the home location's, when neither the origin nor the home page's date holds `<` |
| Scenarios.AddPortfolioToHomeOnly | sitemap-updater.js:145-155 | adding `portafolio.html` at 0.9 monthly to a home-only directory gives two records, the second at 0.9 |
| Scenarios.BlogWithoutUrlIsRepeated | sitemap-updater.js:106-121 | on the site's own origin, `updateSitemap({filename: 'blog.html'})` over a directory holding `index.html` and `blog.html` gives three records, the second and third both at `https://www.techfixsolutions.site/blog.html` |

## Left out

- Reading the directory (`readdirSync`, line 19). The listing is a parameter, so a read failure and the exception it raises are not modelled.
- `getLastModified` (lines 66-76). It is an oracle parameter. Its `statSync`/`Date`/`toISOString` arithmetic and its fallback to the current date depend on the clock and the platform.
- Writing the file (line 128), its failure, the console messages (lines 130, 133) and the `require.main` entry point (lines 160-171). `UpdateSitemap` returns the page list and the document it would write, instead of a promise of `true`.
- The HTTP server, webhook, file-watcher and command-line wrappers. Each is a thin caller of `updateSitemap`/`addPage`.
- Fields that are not strings. An `undefined` file name would render as `/undefined` in the fallback url of line 116. The model has only strings, and the empty string plays the role of every falsy value.
- `addPage`'s default parameters (line 145) apply only to `undefined`, not to an empty string. Lines 118-119 fill the same defaults for any falsy value, so the outcome is identical and the model does not separate the two.
- SitemapXml.SitemapRoundTrip: holds only when no inserted value contains `<`. It is stated against a reader of this exact layout, not against XML well-formedness. The serializer inserts values without escaping. A `<` ends a value early for the reader. A raw `&`, which a file name may hold, leaves the reader's result intact but makes the document ill-formed XML. The model does not state well-formedness.
- Replacing the file atomically. Line 128 overwrites `sitemap.xml` directly, and the model returns the document that would be written.

## Findings

| source | as written | input that shows it | evidently intended | confidence | as-written member | corrected member |
|---|---|---|---|---|---|---|
| sitemap-updater.js:113-116 | the duplicate test compares existing urls with `newPage.url`; when the page has no url, the test never matches, and the fallback url `base + "/" + filename` is appended unchecked | `updateSitemap({filename: 'blog.html'})` on a directory containing `blog.html` yields two records located at `https://www.techfixsolutions.site/blog.html` (`Scenarios.BlogWithoutUrlIsRepeated`) | no two records share a url; merging an existing page is a no-op | medium, not executed; no caller in the repository omits the url (`addPage` always supplies it) | Updater.UpdateSitemapDuplicatesFallback | Updater.UpdateSitemapCorrected |

`Updater.UpdateSitemap` and `Updater.AddPage` keep the duplicate test as written. `addPage` always supplies a url, and for such a page `Updater.UpdateSitemapAgreesWhenUrlSupplied` shows that the corrected update gives the same result.

=== FILE: pages.dfy ===
/**
 The page record of the sitemap updater, its fixed configuration and the
 naming heuristic that assigns a priority and a change frequency to a page
 file.
 */
module Pages {
  import opened Text

  /** One `<url>` entry of the sitemap. Priority and change frequency are kept as the strings the XML carries. */
  datatype Page = Page(url: string, filename: string, priority: string, changefreq: string)

  /** The origin every location is prefixed with, as configured by the updater's constructor. */
  const BaseUrl: string := "https://www.techfixsolutions.site"

  /** The home page file; it is never classified and always leads the sitemap. */
  const HomeFilename: string := "index.html"

  /** The extension that marks a directory entry as a page. */
  const PageExtension: string := ".html"

  /** The record for the home page: the bare origin, top priority, weekly changes. */
  function HomePage(base: string): (p: Page) {
    Page(base + "/", HomeFilename, "1.0", "weekly")
  }

  /** The result of classifying a file name. */
  datatype Class = Class(priority: string, changefreq: string)

  /** The values the classifier can produce, a subset of the sitemaps.org enumerations. */
  predicate IsClassifierOutput(c: Class) {
    && (c.priority == "0.7" || c.priority == "0.8" || c.priority == "0.9")
    && (c.changefreq == "weekly" || c.changefreq == "monthly")
  }

  /**
   The priority/changefreq chain of the scanner: each test is a case-sensitive
   substring test on the file name, and the first one that succeeds decides.
   */
  function Classify(file: string): (c: Class)
    ensures IsClassifierOutput(c)
  {
    if Includes(file, "service") || Includes(file, "servicio") then Class("0.9", "monthly")
    else if Includes(file, "about") || Includes(file, "nosotros") then Class("0.8", "monthly")
    else if Includes(file, "contact") || Includes(file, "contacto") then Class("0.8", "monthly")
    else if Includes(file, "blog") then Class("0.7", "weekly")
    else if Includes(file, "portafolio") || Includes(file, "portfolio") then Class("0.9", "monthly")
    else Class("0.8", "monthly")
  }

  /** One row of a rule table: any of `markers` selects `outcome`. */
  datatype Rule = Rule(markers: seq<string>, outcome: Class)

  /** The classifier written as data: the rows in precedence order. */
  const Rules: seq<Rule> := [
    Rule(["service", "servicio"], Class("0.9", "monthly")),
    Rule(["about", "nosotros"], Class("0.8", "monthly")),
    Rule(["contact", "contacto"], Class("0.8", "monthly")),
    Rule(["blog"], Class("0.7", "weekly")),
    Rule(["portafolio", "portfolio"], Class("0.9", "monthly"))
  ]

  /** The outcome when no rule matches. */
  const Fallback: Class := Class("0.8", "monthly")

  /** Some marker of `rule` occurs in `file`. */
  predicate RuleMatches(rule: Rule, file: string) {
    exists k :: 0 <= k < |rule.markers| && Includes(file, rule.markers[k])
  }

  /** The position of the first rule of `rules` that matches `file`, or `|rules|` when none does. */
  function FirstMatch(rules: seq<Rule>, file: string): (n: nat)
    ensures n <= |rules|
    ensures n < |rules| ==> RuleMatches(rules[n], file)
    ensures forall j :: 0 <= j < n ==> !RuleMatches(rules[j], file)
  {
    if |rules| == 0 then 0
    else if RuleMatches(rules[0], file) then 0
    else 1 + FirstMatch(rules[1..], file)
  }

  /** Rule-table classification: the outcome of the first matching rule, else the fallback. */
  function ClassifyByTable(rules: seq<Rule>, file: string): Class {
    var n := FirstMatch(rules, file);
    if n < |rules| then rules[n].outcome else Fallback
  }

  /** A rule with one or two markers matches when the first or the second marker occurs. */
  lemma MarkersMatch(rule: Rule, file: string)
    requires 1 <= |rule.markers| <= 2
    ensures RuleMatches(rule, file) <==>
      Includes(file, rule.markers[0]) || Includes(file, rule.markers[|rule.markers| - 1])
  {
  }

  /** The if-else chain of the scanner and the first-match rule table agree on every file name. */
  lemma ClassifyIsFirstMatch(file: string)
    ensures Classify(file) == ClassifyByTable(Rules, file)
  {
    MarkersMatch(Rules[0], file);
    MarkersMatch(Rules[1], file);
    MarkersMatch(Rules[2], file);
    MarkersMatch(Rules[3], file);
    MarkersMatch(Rules[4], file);
    assert RuleMatches(Rules[0], file) <==> Includes(file, "service") || Includes(file, "servicio");
    assert RuleMatches(Rules[1], file) <==> Includes(file, "about") || Includes(file, "nosotros");
    assert RuleMatches(Rules[2], file) <==> Includes(file, "contact") || Includes(file, "contacto");
    assert RuleMatches(Rules[3], file) <==> Includes(file, "blog");
    assert RuleMatches(Rules[4], file) <==> Includes(file, "portafolio") || Includes(file, "portfolio");
  }

  /** The blog rule is the first to match `file`. */
  predicate BlogRuleDecides(file: string) {
    && !(Includes(file, "service") || Includes(file, "servicio"))
    && !(Includes(file, "about") || Includes(file, "nosotros"))
    && !(Includes(file, "contact") || Includes(file, "contacto"))
    && Includes(file, "blog")
  }

  /** A file changes weekly exactly when the blog rule decides it; every other file changes monthly. */
  lemma WeeklyIffBlogDecides(file: string)
    ensures Classify(file).changefreq == "weekly" <==> BlogRuleDecides(file)
    ensures !BlogRuleDecides(file) ==> Classify(file).changefreq == "monthly"
  {
  }

  /** Priority 0.7 is given exactly to the files the blog rule decides. */
  lemma LowestPriorityIffBlogDecides(file: string)
    ensures Classify(file).priority == "0.7" <==> BlogRuleDecides(file)
  {
  }

  /** Priority 0.9 is given to service pages, and to portfolio pages no earlier rule claims. */
  lemma TopPriorityIff(file: string)
    ensures Classify(file).priority == "0.9" <==>
      (Includes(file, "service") || Includes(file, "servicio")) ||
      (!Includes(file, "about") && !Includes(file, "nosotros") &&
       !Includes(file, "contact") && !Includes(file, "blog") &&
       (Includes(file, "portafolio") || Includes(file, "portfolio")))
  {
    ContactoTestIsRedundant(file);
  }

  /**
   The `contacto` alternative of the contact rule never changes the outcome:
   any name containing `contacto` already contains `contact`.
   */
  lemma ContactoTestIsRedundant(file: string)
    ensures Includes(file, "contacto") ==> Includes(file, "contact")
  {
    assert "contacto" == "contact" + "o";
    IncludesLongerMarker(file, "contact", "o");
  }

  /** A name carrying both a blog and a service marker is a service page: the earlier rule wins. */
  lemma ServiceOutranksBlog()
    ensures Classify("blog-servicio.html") == Class("0.9", "monthly")
  {
    var file := "blog-servicio.html";
    assert file[5..5 + |"servicio"|] == "servicio";
    OccursImpliesIncludes(file, "servicio", 5);
  }
}

=== FILE: scanner.dfy ===
/**
 The directory scan of the sitemap updater: a directory listing becomes the
 home record followed by one classified record per page file, in listing
 order. The listing is a parameter; reading the directory is not modelled.
 */
module Scanner {
  import opened Text
  import opened Pages

  /** The directory entries the scanner turns into records: page files other than the home file. */
  predicate IsListedPage(file: string) {
    EndsWith(file, PageExtension) && file != HomeFilename
  }

  /**
   The path part of a record's location. The home-file branch is kept as the
   scanner has it, although `IsListedPage` never lets the home file reach it.
   */
  function UrlPath(file: string): (path: string)
    ensures |path| >= 1 && path[0] == '/'
    ensures file != HomeFilename ==> path[1..] == file
  {
    if file == HomeFilename then "/" else "/" + file
  }

  /**
   The record the scanner builds for one kept directory entry: it keeps the
   name, takes a class the classifier can produce, and is located at
   `base + "/" + file`.
   */
  function FilePage(base: string, file: string): (p: Page)
    ensures p.filename == file
    ensures IsClassifierOutput(Class(p.priority, p.changefreq))
    ensures IsListedPage(file) ==> p.url == base + "/" + file
  {
    var c := Classify(file);
    Page(base + UrlPath(file), file, c.priority, c.changefreq)
  }

  /** The listing filtered down to the entries the scanner keeps. */
  function ListedPages(listing: seq<string>): (files: seq<string>)
    ensures forall k :: 0 <= k < |files| ==> IsListedPage(files[k])
  {
    if |listing| == 0 then []
    else
      var last := listing[|listing| - 1];
      ListedPages(listing[..|listing| - 1]) + (if IsListedPage(last) then [last] else [])
  }

  /** The scanned page list: the home record, then one record per kept entry. */
  function Scan(base: string, listing: seq<string>): (pages: seq<Page>)
    ensures |pages| >= 1 && pages[0] == HomePage(base)
  {
    var files := ListedPages(listing);
    [HomePage(base)] + seq(|files|, k requires 0 <= k < |files| => FilePage(base, files[k]))
  }

  /**
   The positions below `n` of the listing entries the scanner keeps, in
   increasing order: every kept position appears, and no other.
   */
  function KeptPositions(listing: seq<string>, n: nat): (idx: seq<nat>)
    requires n <= |listing|
    ensures forall k :: 0 <= k < |idx| ==> idx[k] < n && IsListedPage(listing[idx[k]])
    ensures forall k, m :: 0 <= k < m < |idx| ==> idx[k] < idx[m]
    ensures forall i :: 0 <= i < n && IsListedPage(listing[i]) ==> i in idx
  {
    if n == 0 then []
    else KeptPositions(listing, n - 1) + (if IsListedPage(listing[n - 1]) then [n - 1] else [])
  }

  /** The kept entries of a listing prefix are the listing's entries at the kept positions. */
  lemma {:induction false} ListedPagesAtKeptPositions(listing: seq<string>, n: nat)
    requires n <= |listing|
    ensures |ListedPages(listing[..n])| == |KeptPositions(listing, n)|
    ensures forall k :: 0 <= k < |KeptPositions(listing, n)| ==>
      ListedPages(listing[..n])[k] == listing[KeptPositions(listing, n)[k]]
  {
    if n > 0 {
      assert listing[..n][..n - 1] == listing[..n - 1];
      ListedPagesAtKeptPositions(listing, n - 1);
    }
  }

  /** The scan result holds the home record and then the record of each kept position, in order. */
  lemma ScanAtKeptPositions(base: string, listing: seq<string>)
    ensures |Scan(base, listing)| == 1 + |KeptPositions(listing, |listing|)|
    ensures forall k :: 0 <= k < |KeptPositions(listing, |listing|)| ==>
      Scan(base, listing)[k + 1] == FilePage(base, listing[KeptPositions(listing, |listing|)[k]])
  {
    assert listing[..|listing|] == listing;
    ListedPagesAtKeptPositions(listing, |listing|);
    ScanRecords(base, listing);
  }

  /** Proof step of `ScanAtKeptPositions`: record `k + 1` of the scan is built from the `k`-th kept entry. */
  lemma ScanRecords(base: string, listing: seq<string>)
    ensures |Scan(base, listing)| == 1 + |ListedPages(listing)|
    ensures forall k :: 0 <= k < |ListedPages(listing)| ==>
      Scan(base, listing)[k + 1] == FilePage(base, ListedPages(listing)[k])
  {
  }

  /**
   The scan result is the home record followed, in listing order, by one
   record for each kept entry, located at `base + "/" + file` and classified
   by its name; nothing else is in it.
   */
  lemma ScanFollowsListing(base: string, listing: seq<string>)
    ensures var pages := Scan(base, listing);
      var idx := KeptPositions(listing, |listing|);
      && |pages| == 1 + |idx|
      && pages[0] == HomePage(base)
      && forall k :: 0 <= k < |idx| ==>
           pages[k + 1] == Page(base + "/" + listing[idx[k]], listing[idx[k]],
                                Classify(listing[idx[k]]).priority, Classify(listing[idx[k]]).changefreq)
  {
    ScanAtKeptPositions(base, listing);
  }

  /** An entry's record is in the scan result exactly when the scanner keeps that entry. */
  lemma ListedPagesMembers(listing: seq<string>, file: string)
    ensures file in ListedPages(listing) <==> file in listing && IsListedPage(file)
  {
    var idx := KeptPositions(listing, |listing|);
    assert listing[..|listing|] == listing;
    ListedPagesAtKeptPositions(listing, |listing|);
    var files := ListedPages(listing);
    if file in files {
      var k :| 0 <= k < |files| && files[k] == file;
      assert listing[idx[k]] == file;
    }
    if file in listing && IsListedPage(file) {
      var i :| 0 <= i < |listing| && listing[i] == file;
      var k :| 0 <= k < |idx| && idx[k] == i;
      assert files[k] == file;
    }
  }

  /** No two records of `pages` share a location. */
  predicate UniqueUrls(pages: seq<Page>) {
    forall i, j :: 0 <= i < j < |pages| ==> pages[i].url != pages[j].url
  }

  /** Some record of `pages` is located at `url`. */
  predicate HasUrl(pages: seq<Page>, url: string) {
    exists i :: 0 <= i < |pages| && pages[i].url == url
  }

  /** Prefixing one origin and a slash keeps different names apart. */
  lemma LocationsDiffer(base: string, a: string, b: string)
    requires a != b
    ensures base + "/" + a != base + "/" + b
  {
    assert (base + "/" + a)[|base| + 1..] == a;
    assert (base + "/" + b)[|base| + 1..] == b;
  }

  /** No name appears twice in `listing`, as in any directory listing. */
  predicate DistinctEntries(listing: seq<string>) {
    forall i, j :: 0 <= i < j < |listing| ==> listing[i] != listing[j]
  }

  /** A directory listing names each entry once; the scan then gives every record its own location. */
  lemma ScanUrlsUnique(base: string, listing: seq<string>)
    requires DistinctEntries(listing)
    ensures UniqueUrls(Scan(base, listing))
  {
    var pages := Scan(base, listing);
    var idx := KeptPositions(listing, |listing|);
    ScanFollowsListing(base, listing);
    forall i, j | 0 <= i < j < |pages|
      ensures pages[i].url != pages[j].url
    {
      var fj := listing[idx[j - 1]];
      assert |fj| >= |PageExtension|;
      if i == 0 {
        assert |pages[j].url| > |base + "/"|;
      } else {
        LocationsDiffer(base, listing[idx[i - 1]], fj);
      }
    }
  }

  /**
   A location `base + "/" + name` is already in the scan result exactly when
   `name` is empty (the home location) or a page file of the listing.
   */
  lemma ScanLocations(base: string, listing: seq<string>, name: string)
    ensures HasUrl(Scan(base, listing), base + "/" + name) <==>
      name == "" || (name in listing && IsListedPage(name))
  {
    var pages := Scan(base, listing);
    var idx := KeptPositions(listing, |listing|);
    ScanFollowsListing(base, listing);
    if name == "" {
      assert pages[0].url == base + "/" + name;
    } else if name in listing && IsListedPage(name) {
      var i :| 0 <= i < |listing| && listing[i] == name;
      var k :| 0 <= k < |idx| && idx[k] == i;
      assert pages[k + 1].url == base + "/" + name;
    }
    if HasUrl(pages, base + "/" + name) {
      var i :| 0 <= i < |pages| && pages[i].url == base + "/" + name;
      if i == 0 {
        assert (base + "/" + name)[|base| + 1..] == name;
      } else {
        var f := listing[idx[i - 1]];
        assert pages[i].url == base + "/" + f;
        if f != name {
          LocationsDiffer(base, f, name);
        }
      }
    }
  }
}

=== FILE: scenarios.dfy ===
/**
 The outcome for small concrete directories: a home page with a contact page
 and a blog, a directory holding only the home page, and a portfolio page
 added to it, with the origin left as a parameter; and, on the site's own
 origin, an update naming `blog.html` without a url.
 */
module Scenarios {
  import opened Wrappers
  import opened Text
  import opened Pages
  import opened Scanner
  import opened SitemapXml
  import opened Updater

  /** `blog.html` carries no earlier marker, so the blog rule decides it. */
  lemma BlogPageClass()
    ensures Classify("blog.html") == Class("0.7", "weekly")
  {
    IncludedCharsOccur("blog.html", "service", 's');
    IncludedCharsOccur("blog.html", "servicio", 's');
    IncludedCharsOccur("blog.html", "about", 'a');
    IncludedCharsOccur("blog.html", "nosotros", 's');
    IncludedCharsOccur("blog.html", "contact", 'a');
    IncludedCharsOccur("blog.html", "contacto", 'a');
    assert "blog.html"[0..0 + |"blog"|] == "blog";
    OccursImpliesIncludes("blog.html", "blog", 0);
  }

  /** The home file is dropped from a three-entry listing; the other two are kept in order. */
  lemma ThreeEntryListingKept(other: string)
    requires IsListedPage(other)
    ensures ListedPages([HomeFilename, other, "blog.html"]) == [other, "blog.html"]
  {
    var listing := [HomeFilename, other, "blog.html"];
    assert listing[..2] == [HomeFilename, other];
    assert listing[..2][..1] == [HomeFilename];
    assert listing[..2][..1][..0] == [];
    assert IsListedPage("blog.html");
    assert ListedPages(listing[..2][..1][..0]) == [];
    assert ListedPages(listing[..2][..1]) == [];
    assert ListedPages(listing[..2]) == [other];
  }

  /** The scan of a three-entry listing holding the home file. */
  lemma ThreeEntryScan(base: string, other: string)
    requires IsListedPage(other)
    ensures var pages := Scan(base, [HomeFilename, other, "blog.html"]);
      |pages| == 3 && pages[0] == HomePage(base) && pages[1] == FilePage(base, other) && pages[2] == FilePage(base, "blog.html")
  {
    ThreeEntryListingKept(other);
  }

  /** The record built for `blog.html`. */
  lemma BlogPage(base: string)
    ensures FilePage(base, "blog.html") == Page(base + "/" + "blog.html", "blog.html", "0.7", "weekly")
  {
    BlogPageClass();
  }

  /**
   The home page, any other page file and a blog: three records, in listing
   order, the blog weekly at 0.7 (the contact page `contacto.html` is one
   such other file).
   */
  lemma HomeOtherAndBlogDirectory(base: string, other: string)
    requires IsListedPage(other)
    ensures var pages := Scan(base, [HomeFilename, other, "blog.html"]);
      && |pages| == 3
      && pages[0] == HomePage(base)
      && pages[1].url == base + "/" + other
      && pages[2] == Page(base + "/" + "blog.html", "blog.html", "0.7", "weekly")
  {
    ThreeEntryScan(base, other);
    BlogPage(base);
  }

  /** `contacto.html` is a page file the scanner keeps. */
  lemma ContactoIsListedPage()
    ensures IsListedPage("contacto.html")
  {
  }

  /** `contacto.html` carries no service or about marker, and `contact` occurs at its start. */
  lemma ContactoPageClass()
    ensures Classify("contacto.html") == Class("0.8", "monthly")
  {
    IncludedCharsOccur("contacto.html", "service", 's');
    IncludedCharsOccur("contacto.html", "servicio", 's');
    IncludedCharsOccur("contacto.html", "about", 'b');
    IncludedCharsOccur("contacto.html", "nosotros", 's');
    assert "contacto.html"[0..0 + |"contact"|] == "contact";
    OccursImpliesIncludes("contacto.html", "contact", 0);
  }

  /**
   `index.html`, `contacto.html` and `blog.html`: the home record, the contact
   page at 0.8 monthly, the blog at 0.7 weekly, in listing order.
   */
  lemma HomeContactAndBlogDirectory(base: string)
    ensures var pages := Scan(base, [HomeFilename, "contacto.html", "blog.html"]);
      && |pages| == 3
      && pages[0] == HomePage(base)
      && pages[1] == Page(base + "/" + "contacto.html", "contacto.html", "0.8", "monthly")
      && pages[2] == Page(base + "/" + "blog.html", "blog.html", "0.7", "weekly")
  {
    ContactoIsListedPage();
    ThreeEntryScan(base, "contacto.html");
    HomeOtherAndBlogDirectory(base, "contacto.html");
    ContactoPageClass();
  }

  /** With no page file besides the home page, the scan is the home record alone. */
  lemma {:induction false} NoPagesScan(base: string, listing: seq<string>)
    requires forall i :: 0 <= i < |listing| ==> !IsListedPage(listing[i])
    ensures Scan(base, listing) == [HomePage(base)]
    decreases |listing|
  {
    if |listing| > 0 {
      NoPagesScan(base, listing[..|listing| - 1]);
    }
  }

  /**
   With no page file besides the home page, the document holds exactly one
   `<url>` element, the home location's.
   */
  lemma NoPagesDocument(base: string, listing: seq<string>, lastmod: string -> string)
    requires forall i :: 0 <= i < |listing| ==> !IsListedPage(listing[i])
    requires Verbatim(base) && Verbatim(lastmod(HomeFilename))
    ensures ParseSitemap(UpdateSitemap(base, listing, None, lastmod).xml)
      == Some([Entry(base + "/", lastmod(HomeFilename), "weekly", "1.0")])
  {
    var u := UpdateSitemap(base, listing, None, lastmod);
    assert u.pages == [HomePage(base)] by {
      NoPagesScan(base, listing);
    }
    HomeOnlyEntries(base, lastmod);
  }

  /** The home record alone carries readable values, and its one entry is the home location's. */
  lemma HomeOnlyEntries(base: string, lastmod: string -> string)
    requires Verbatim(base) && Verbatim(lastmod(HomeFilename))
    ensures VerbatimFields([HomePage(base)], lastmod)
    ensures EntriesOf([HomePage(base)], lastmod) == [Entry(base + "/", lastmod(HomeFilename), "weekly", "1.0")]
  {
    assert Verbatim(base + "/");
  }

  /** Adding a portfolio page to a directory holding only the home page gives two records, the new one at 0.9. */
  lemma AddPortfolioToHomeOnly(base: string, lastmod: string -> string)
    ensures var pages := AddPage(base, [HomeFilename], "portafolio.html", "0.9", "monthly", lastmod).pages;
      && |pages| == 2
      && pages[0] == HomePage(base)
      && pages[1] == Page(base + "/" + "portafolio.html", "portafolio.html", "0.9", "monthly")
  {
    NoPagesScan(base, [HomeFilename]);
    AddPageEffect(base, [HomeFilename], "portafolio.html", "0.9", "monthly", lastmod);
  }

  /**
   The site's own origin, a directory holding `index.html` and `blog.html`,
   and a new page naming `blog.html` without a url: the update as written
   returns three records, two of them at the blog's location.
   */
  lemma BlogWithoutUrlIsRepeated(lastmod: string -> string)
    ensures var pages := UpdateSitemap(BaseUrl, [HomeFilename, "blog.html"], Some(NewPage("", "blog.html", "", "")), lastmod).pages;
      && |pages| == 3
      && pages[1].url == pages[2].url == BaseUrl + "/" + "blog.html"
  {
    var listing := [HomeFilename, "blog.html"];
    var scanned := Scan(BaseUrl, listing);
    assert listing[..1] == [HomeFilename];
    assert listing[..1][..0] == [];
    assert IsListedPage("blog.html");
    assert ListedPages(listing[..1][..0]) == [];
    assert ListedPages(listing[..1]) == [];
    assert ListedPages(listing) == ["blog.html"];
    assert |scanned| == 2;
    assert !HasUrl(scanned, "") by {
      forall j | 0 <= j < |scanned|
        ensures scanned[j].url != ""
      {
        ScanUrlsNonEmpty(BaseUrl, listing, j);
      }
    }
  }
}

=== FILE: sitemap_xml.dfy ===
/**
 The sitemap document: a sitemaps.org 0.9 `urlset` with one `<url>` element
 per page record, fields in the order loc, lastmod, changefreq, priority,
 values inserted verbatim. The last-modified lookup is an oracle passed in
 by the caller. A parser for exactly this layout states what the document
 carries: reading the document back yields the records it was written from.
 */
module SitemapXml {
  import opened Wrappers
  import opened Text
  import opened Pages

  const XmlDeclaration: string := "<?xml version=\"1.0\" encoding=\"UTF-8\"?>\n"
  const UrlsetOpen: string := "<urlset xmlns=\"http://www.sitemaps.org/schemas/sitemap/0.9\">\n"
  const UrlsetClose: string := "</urlset>\n"
  const UrlOpen: string := "  <url>\n"
  const UrlClose: string := "  </url>\n"

  /** What the document says about one page: the four child elements of a `<url>`. */
  datatype Entry = Entry(loc: string, lastmod: string, changefreq: string, priority: string)

  /** The entry written for `page`, its date taken from the last-modified oracle. */
  function EntryOf(page: Page, lastmod: string -> string): Entry {
    Entry(page.url, lastmod(page.filename), page.changefreq, page.priority)
  }

  /** The entries written for `pages`, in record order. */
  function EntriesOf(pages: seq<Page>, lastmod: string -> string): (es: seq<Entry>)
    ensures |es| == |pages|
    ensures forall i :: 0 <= i < |pages| ==> es[i] == EntryOf(pages[i], lastmod)
  {
    seq(|pages|, i requires 0 <= i < |pages| => EntryOf(pages[i], lastmod))
  }

  function OpenTag(tag: string): string { "    <" + tag + ">" }
  function CloseTag(tag: string): string { "</" + tag + ">\n" }

  /** One child line of a `<url>` element, the value inserted without escaping. */
  function Element(tag: string, value: string): (line: string) {
    OpenTag(tag) + value + CloseTag(tag)
  }

  /** The `<url>` element for one entry: it opens with `  <url>` and closes with `  </url>`. */
  function UrlBlock(e: Entry): (block: string)
    ensures StartsWith(block, UrlOpen)
    ensures EndsWith(block, UrlClose)
  {
    var block := UrlOpen + Element("loc", e.loc) + Element("lastmod", e.lastmod)
      + Element("changefreq", e.changefreq) + Element("priority", e.priority) + UrlClose;
    assert block[..|UrlOpen|] == UrlOpen;
    assert block[|block| - |UrlClose|..] == UrlClose;
    block
  }

  /** The `<url>` elements for `es`, in order: no text for no entries, else it opens with a `<url>` element. */
  function Blocks(es: seq<Entry>): (text: string)
    ensures text == [] <==> |es| == 0
    ensures |es| > 0 ==> StartsWith(text, UrlOpen)
  {
    if |es| == 0 then []
    else
      var first := UrlBlock(es[0]);
      var text := first + Blocks(es[1..]);
      assert text[..|UrlOpen|] == first[..|UrlOpen|];
      text
  }

  /** The whole sitemap document for `pages`. */
  function GenerateSitemapXml(pages: seq<Page>, lastmod: string -> string): (xml: string)
    ensures StartsWith(xml, XmlDeclaration + UrlsetOpen)
    ensures EndsWith(xml, UrlsetClose)
    ensures |pages| == 0 ==> xml == XmlDeclaration + UrlsetOpen + UrlsetClose
  {
    var xml := XmlDeclaration + UrlsetOpen + Blocks(EntriesOf(pages, lastmod)) + UrlsetClose;
    assert xml[..|XmlDeclaration + UrlsetOpen|] == XmlDeclaration + UrlsetOpen;
    assert xml[|xml| - |UrlsetClose|..] == UrlsetClose;
    xml
  }

  // ---- Reading the document back ----

  /** Reads `    <tag>value</tag>\n` off the front of `s`: the value (up to the next `<`) and the rest. */
  function ParseElement(s: string, tag: string): (r: Option<(string, string)>)
    ensures r.Some? ==> |r.value.1| < |s|
  {
    var open := OpenTag(tag);
    if !StartsWith(s, open) then None
    else
      var body := s[|open|..];
      var value := TakeUntil(body, '<');
      var after := body[|value|..];
      var close := CloseTag(tag);
      if StartsWith(after, close) then Some((value, after[|close|..])) else None
  }

  /** Reads one `<url>` element off the front of `s`: its entry and the rest. */
  function ParseBlock(s: string): (r: Option<(Entry, string)>)
    ensures r.Some? ==> |r.value.1| < |s|
  {
    if !StartsWith(s, UrlOpen) then None
    else
      var s0 := s[|UrlOpen|..];
      match ParseElement(s0, "loc")
      case None => None
      case Some((loc, s1)) =>
        match ParseElement(s1, "lastmod")
        case None => None
        case Some((lastmod, s2)) =>
          match ParseElement(s2, "changefreq")
          case None => None
          case Some((changefreq, s3)) =>
            match ParseElement(s3, "priority")
            case None => None
            case Some((priority, s4)) =>
              if StartsWith(s4, UrlClose) then Some((Entry(loc, lastmod, changefreq, priority), s4[|UrlClose|..]))
              else None
  }

  /** Reads `<url>` elements until exactly the closing `</urlset>` line remains. */
  function ParseBlocks(s: string): (r: Option<seq<Entry>>)
    decreases |s|
  {
    if s == UrlsetClose then Some([])
    else
      match ParseBlock(s)
      case None => None
      case Some((e, rest)) =>
        match ParseBlocks(rest)
        case None => None
        case Some(es) => Some([e] + es)
  }

  /** Reads a whole sitemap document of this layout. */
  function ParseSitemap(xml: string): (r: Option<seq<Entry>>) {
    var header := XmlDeclaration + UrlsetOpen;
    if StartsWith(xml, header) then ParseBlocks(xml[|header|..]) else None
  }

  // ---- The round trip ----

  /**
   A value this layout's reader gets back unchanged: it holds no `<`, which
   would end the value early. This is about the reader only: an unescaped
   `&` is `Verbatim` too, yet makes the document ill-formed XML.
   */
  predicate Verbatim(value: string) {
    '<' !in value
  }

  /** Every field the document would carry for `pages` is `Verbatim`. */
  predicate VerbatimFields(pages: seq<Page>, lastmod: string -> string) {
    forall i :: 0 <= i < |pages| ==>
      && Verbatim(pages[i].url) && Verbatim(lastmod(pages[i].filename))
      && Verbatim(pages[i].changefreq) && Verbatim(pages[i].priority)
  }

  /** A child line holding a `<`-free value reads back as that value and the rest of the text. */
  lemma ElementRoundTrip(tag: string, value: string, rest: string)
    requires Verbatim(value)
    ensures ParseElement(Element(tag, value) + rest, tag) == Some((value, rest))
  {
    var open := OpenTag(tag);
    var close := CloseTag(tag);
    var s := Element(tag, value) + rest;
    assert s == open + (value + (close + rest));
    assert s[..|open|] == open;
    var body := s[|open|..];
    assert body == value + (close + rest);
    TakeUntilStops(value, close + rest, '<');
    assert body[|value|..] == close + rest;
    assert (close + rest)[..|close|] == close;
    assert (close + rest)[|close|..] == rest;
  }

  /** `ParseBlock` succeeds on `s` once each of its steps is known to succeed. */
  lemma ParseBlockSteps(s: string, e: Entry, s1: string, s2: string, s3: string, s4: string, rest: string)
    requires StartsWith(s, UrlOpen)
    requires ParseElement(s[|UrlOpen|..], "loc") == Some((e.loc, s1))
    requires ParseElement(s1, "lastmod") == Some((e.lastmod, s2))
    requires ParseElement(s2, "changefreq") == Some((e.changefreq, s3))
    requires ParseElement(s3, "priority") == Some((e.priority, s4))
    requires StartsWith(s4, UrlClose) && s4[|UrlClose|..] == rest
    ensures ParseBlock(s) == Some((e, rest))
  {
  }

  /** A `<url>` element whose values hold no `<` reads back as its entry and the rest of the text. */
  lemma BlockRoundTrip(e: Entry, rest: string)
    requires Verbatim(e.loc) && Verbatim(e.lastmod) && Verbatim(e.changefreq) && Verbatim(e.priority)
    ensures ParseBlock(UrlBlock(e) + rest) == Some((e, rest))
  {
    var s4 := UrlClose + rest;
    var s3 := Element("priority", e.priority) + s4;
    var s2 := Element("changefreq", e.changefreq) + s3;
    var s1 := Element("lastmod", e.lastmod) + s2;
    var s0 := Element("loc", e.loc) + s1;
    var s := UrlBlock(e) + rest;
    var x1 := UrlOpen + Element("loc", e.loc);
    var x2 := x1 + Element("lastmod", e.lastmod);
    var x3 := x2 + Element("changefreq", e.changefreq);
    var x4 := x3 + Element("priority", e.priority);
    Associate(x4, UrlClose, rest);
    Associate(x3, Element("priority", e.priority), s4);
    Associate(x2, Element("changefreq", e.changefreq), s3);
    Associate(x1, Element("lastmod", e.lastmod), s2);
    Associate(UrlOpen, Element("loc", e.loc), s1);
    assert s == UrlOpen + s0;
    assert s[..|UrlOpen|] == UrlOpen;
    assert s[|UrlOpen|..] == s0;
    ElementRoundTrip("loc", e.loc, s1);
    ElementRoundTrip("lastmod", e.lastmod, s2);
    ElementRoundTrip("changefreq", e.changefreq, s3);
    ElementRoundTrip("priority", e.priority, s4);
    assert s4[..|UrlClose|] == UrlClose;
    assert s4[|UrlClose|..] == rest;
    assert StartsWith(s, UrlOpen);
    assert StartsWith(s4, UrlClose);
    ParseBlockSteps(s, e, s1, s2, s3, s4, rest);
  }

  /** `ParseBlocks` reads a `<url>` element and then continues with the rest. */
  lemma ParseBlocksStep(s: string, e: Entry, rest: string, es: seq<Entry>)
    requires ParseBlock(s) == Some((e, rest))
    requires ParseBlocks(rest) == Some(es)
    ensures ParseBlocks(s) == Some([e] + es)
  {
    assert StartsWith(s, UrlOpen);
    assert s[0] == UrlOpen[0] != UrlsetClose[0];
  }

  /** All four values of `e` are `Verbatim`. */
  predicate VerbatimEntry(e: Entry) {
    Verbatim(e.loc) && Verbatim(e.lastmod) && Verbatim(e.changefreq) && Verbatim(e.priority)
  }

  /** The closing `</urlset>` line alone reads as no entries. */
  lemma ParseBlocksEnd()
    ensures ParseBlocks(UrlsetClose) == Some([])
  {
  }

  /** The elements for a non-empty list split into the first element and the rest. */
  lemma BlocksCons(es: seq<Entry>)
    requires |es| > 0
    ensures Blocks(es) + UrlsetClose == UrlBlock(es[0]) + (Blocks(es[1..]) + UrlsetClose)
  {
    var first := UrlBlock(es[0]);
    var others := Blocks(es[1..]);
    assert Blocks(es) == first + others;
    Associate(first, others, UrlsetClose);
  }

  /** Concatenation regroups freely. */
  lemma Associate(a: string, b: string, c: string)
    ensures (a + b) + c == a + (b + c)
  {
  }

  /** One induction step of `BlocksRoundTrip`: a readable first element in front of a readable rest. */
  lemma BlocksStep(es: seq<Entry>)
    requires |es| > 0 && VerbatimEntry(es[0])
    requires ParseBlocks(Blocks(es[1..]) + UrlsetClose) == Some(es[1..])
    ensures ParseBlocks(Blocks(es) + UrlsetClose) == Some(es)
  {
    var rest := Blocks(es[1..]) + UrlsetClose;
    BlockRoundTrip(es[0], rest);
    ParseBlocksStep(UrlBlock(es[0]) + rest, es[0], rest, es[1..]);
    BlocksCons(es);
    assert [es[0]] + es[1..] == es;
  }

  /** The elements for `es` followed by the closing line read back as `es`, when no value holds `<`. */
  lemma {:induction false} BlocksRoundTrip(es: seq<Entry>)
    requires forall i :: 0 <= i < |es| ==> VerbatimEntry(es[i])
    ensures ParseBlocks(Blocks(es) + UrlsetClose) == Some(es)
  {
    if |es| == 0 {
      assert Blocks(es) + UrlsetClose == UrlsetClose;
      ParseBlocksEnd();
    } else {
      BlocksRoundTrip(es[1..]);
      BlocksStep(es);
    }
  }

  /**
   Reading the document back yields exactly one entry per record, in record
   order, each carrying that record's location, date, change frequency and
   priority, provided no value holds a `<`.
   */
  lemma SitemapRoundTrip(pages: seq<Page>, lastmod: string -> string)
    requires VerbatimFields(pages, lastmod)
    ensures ParseSitemap(GenerateSitemapXml(pages, lastmod)) == Some(EntriesOf(pages, lastmod))
  {
    var es := EntriesOf(pages, lastmod);
    assert forall i :: 0 <= i < |es| ==> VerbatimEntry(es[i]);
    DocumentLayout(pages, lastmod);
    ParseAfterHeader(Blocks(es) + UrlsetClose);
    BlocksRoundTrip(es);
  }

  /** Proof step of `SitemapRoundTrip`: the document regrouped as the header, then the `<url>` elements and the closing line. */
  lemma DocumentLayout(pages: seq<Page>, lastmod: string -> string)
    ensures GenerateSitemapXml(pages, lastmod)
      == (XmlDeclaration + UrlsetOpen) + (Blocks(EntriesOf(pages, lastmod)) + UrlsetClose)
  {
    Associate(XmlDeclaration + UrlsetOpen, Blocks(EntriesOf(pages, lastmod)), UrlsetClose);
  }

  /** `ParseSitemap` strips the header and reads the `<url>` elements that follow. */
  lemma ParseAfterHeader(body: string)
    ensures ParseSitemap((XmlDeclaration + UrlsetOpen) + body) == ParseBlocks(body)
  {
    var header := XmlDeclaration + UrlsetOpen;
    assert (header + body)[..|header|] == header;
    assert (header + body)[|header|..] == body;
  }

  /** The document for `pages` has exactly one `<url>` element per record. */
  lemma OneUrlElementPerRecord(pages: seq<Page>, lastmod: string -> string)
    requires VerbatimFields(pages, lastmod)
    ensures var parsed := ParseSitemap(GenerateSitemapXml(pages, lastmod));
      && parsed.Some?
      && |parsed.value| == |pages|
      && forall i :: 0 <= i < |pages| ==>
           parsed.value[i] == Entry(pages[i].url, lastmod(pages[i].filename), pages[i].changefreq, pages[i].priority)
  {
    SitemapRoundTrip(pages, lastmod);
  }
}

=== FILE: text.dfy ===
/**
 The string operations the sitemap updater relies on, with the meaning
 JavaScript gives them: `startsWith`, `endsWith` and `includes`. Strings
 are compared character by character and case-sensitively.
 */
module Text {

  /** JavaScript `s.startsWith(p)`. */
  predicate StartsWith(s: string, p: string) {
    |p| <= |s| && s[..|p|] == p
  }

  /** JavaScript `s.endsWith(suffix)`. */
  predicate EndsWith(s: string, suffix: string) {
    |suffix| <= |s| && s[|s| - |suffix|..] == suffix
  }

  /** `t` occurs in `s` starting at position `i`. */
  ghost predicate OccursAt(s: string, t: string, i: int) {
    0 <= i && i + |t| <= |s| && s[i..i + |t|] == t
  }

  /** JavaScript `s.includes(t)`, computed by trying every start position from the left. */
  predicate Includes(s: string, t: string)
    decreases |s|
  {
    StartsWith(s, t) || (|s| > 0 && Includes(s[1..], t))
  }

  /** Every occurrence of `t` in `s` is found by `Includes`. */
  lemma {:induction false} OccursImpliesIncludes(s: string, t: string, i: int)
    requires OccursAt(s, t, i)
    ensures Includes(s, t)
    decreases i
  {
    if i == 0 {
      assert StartsWith(s, t);
    } else {
      assert s[1..][i - 1..i - 1 + |t|] == s[i..i + |t|];
      OccursImpliesIncludes(s[1..], t, i - 1);
    }
  }

  /** `Includes` only succeeds at a real occurrence of `t` in `s`. */
  lemma {:induction false} IncludesImpliesOccurs(s: string, t: string)
    requires Includes(s, t)
    ensures exists i :: OccursAt(s, t, i)
    decreases |s|
  {
    if StartsWith(s, t) {
      assert OccursAt(s, t, 0);
    } else {
      IncludesImpliesOccurs(s[1..], t);
      var j :| OccursAt(s[1..], t, j);
      assert s[j + 1..j + 1 + |t|] == s[1..][j..j + |t|];
      assert OccursAt(s, t, j + 1);
    }
  }

  /** `Includes` finds `t` exactly when `t` occurs somewhere in `s`. */
  lemma IncludesIffOccurs(s: string, t: string)
    ensures Includes(s, t) <==> exists i :: OccursAt(s, t, i)
  {
    if Includes(s, t) {
      IncludesImpliesOccurs(s, t);
    } else {
      forall i | 0 <= i
        ensures !OccursAt(s, t, i)
      {
        if OccursAt(s, t, i) {
          OccursImpliesIncludes(s, t, i);
        }
      }
    }
  }

  /** A string that includes `t + u` also includes `t`: a longer marker is subsumed by its prefix. */
  lemma IncludesLongerMarker(s: string, t: string, u: string)
    ensures Includes(s, t + u) ==> Includes(s, t)
  {
    IncludesIffOccurs(s, t + u);
    IncludesIffOccurs(s, t);
    if Includes(s, t + u) {
      var i :| OccursAt(s, t + u, i);
      assert s[i..i + |t|] == s[i..i + |t + u|][..|t|] == (t + u)[..|t|] == t;
      assert OccursAt(s, t, i);
    }
  }

  /** Every character of an included string occurs in the including one; so a string lacking one cannot include it. */
  lemma IncludedCharsOccur(s: string, t: string, c: char)
    requires c in t
    ensures Includes(s, t) ==> c in s
  {
    if Includes(s, t) {
      IncludesImpliesOccurs(s, t);
      var i :| OccursAt(s, t, i);
      var k :| 0 <= k < |t| && t[k] == c;
      assert s[i + k] == s[i..i + |t|][k] == c;
    }
  }

  /** The longest prefix of `s` that does not contain `c`. */
  function TakeUntil(s: string, c: char): (v: string)
    ensures |v| <= |s| && s[..|v|] == v
    ensures c !in v
    ensures |v| == |s| || s[|v|] == c
  {
    if |s| == 0 || s[0] == c then [] else [s[0]] + TakeUntil(s[1..], c)
  }

  /** Scanning up to `c` stops exactly at the end of a `c`-free prefix followed by `c`. */
  lemma {:induction false} TakeUntilStops(v: string, w: string, c: char)
    requires c !in v
    requires |w| > 0 && w[0] == c
    ensures TakeUntil(v + w, c) == v
    decreases |v|
  {
    if |v| == 0 {
      assert v + w == w;
    } else {
      assert (v + w)[1..] == v[1..] + w;
      TakeUntilStops(v[1..], w, c);
    }
  }
}

=== FILE: updater.dfy ===
/**
 The update operation of the sitemap updater: scan, merge in an optional new
 page, serialize. `UpdateSitemap` keeps the updater's duplicate test on the
 supplied url; `UpdateSitemapCorrected` tests the location the new record
 would get. `AddPage` builds the new page from a file name. Writing the
 document to disk is not modelled; the operation returns the page list and
 the document it would write.

 The optional page's fields follow the JavaScript convention of the source:
 an empty string stands for a field that is missing (falsy), and is replaced
 by its default when the record is appended.
 */
module Updater {
  import opened Wrappers
  import opened Text
  import opened Pages
  import opened Scanner
  import opened SitemapXml

  /** The optional page argument of an update; `""` marks a field that was left out. */
  datatype NewPage = NewPage(url: string, filename: string, priority: string, changefreq: string)

  const DefaultPriority: string := "0.8"
  const DefaultChangefreq: string := "monthly"

  /** JavaScript `value || fallback` on strings. */
  function OrElse(value: string, fallback: string): (r: string)
    ensures value != "" ==> r == value
    ensures value == "" ==> r == fallback
    ensures fallback != "" ==> r != ""
  {
    if value != "" then value else fallback
  }

  /** The location the appended record gets: the supplied url, else the origin plus the file name. */
  function EffectiveUrl(base: string, np: NewPage): (url: string)
    ensures url != ""
    ensures np.url != "" ==> url == np.url
    ensures np.url == "" ==> url == base + "/" + np.filename
  {
    OrElse(np.url, base + "/" + np.filename)
  }

  /** The record appended for a new page, with the defaults filled in. */
  function Completed(base: string, np: NewPage): (p: Page)
    ensures p.url != "" && p.priority != "" && p.changefreq != ""
    ensures p.url == EffectiveUrl(base, np)
    ensures p.filename == np.filename
    ensures np.priority == "" ==> p.priority == DefaultPriority
    ensures np.priority != "" ==> p.priority == np.priority
    ensures np.changefreq == "" ==> p.changefreq == DefaultChangefreq
    ensures np.changefreq != "" ==> p.changefreq == np.changefreq
  {
    Page(EffectiveUrl(base, np), np.filename, OrElse(np.priority, DefaultPriority), OrElse(np.changefreq, DefaultChangefreq))
  }

  /**
   The merge step as the updater writes it: the duplicate test compares the
   SUPPLIED url, so a page without one is always appended, even when its
   fallback location is already present.
   */
  function MergeAsWritten(base: string, pages: seq<Page>, newPage: Option<NewPage>): (r: seq<Page>)
    ensures |r| == |pages| <==> newPage.None? || HasUrl(pages, newPage.value.url)
    ensures |r| == |pages| ==> r == pages
    ensures |r| != |pages| ==>
      |r| == |pages| + 1 && r[..|pages|] == pages && r[|pages|] == Completed(base, newPage.value)
  {
    match newPage
    case None => pages
    case Some(np) => if HasUrl(pages, np.url) then pages else pages + [Completed(base, np)]
  }

  /**
   The merge step with the duplicate test on the location the record would
   actually get. Used by `UpdateSitemapCorrected`; it agrees with
   `MergeAsWritten` whenever a url is supplied, as `addPage` always does.
   */
  function Merge(base: string, pages: seq<Page>, newPage: Option<NewPage>): (r: seq<Page>)
    ensures |r| == |pages| <==> newPage.None? || HasUrl(pages, EffectiveUrl(base, newPage.value))
    ensures |r| == |pages| ==> r == pages
    ensures |r| != |pages| ==>
      |r| == |pages| + 1 && r[..|pages|] == pages && r[|pages|] == Completed(base, newPage.value)
    ensures UniqueUrls(pages) ==> UniqueUrls(r)
  {
    match newPage
    case None => pages
    case Some(np) =>
      if HasUrl(pages, EffectiveUrl(base, np)) then pages
      else
        var r := pages + [Completed(base, np)];
        assert UniqueUrls(pages) ==> UniqueUrls(r) by {
          if UniqueUrls(pages) {
            forall i, j | 0 <= i < j < |r|
              ensures r[i].url != r[j].url
            {
              if j == |pages| {
                assert r[i] == pages[i];
              }
            }
          }
        }
        r
  }

  /** With a url supplied, the written merge and the corrected merge are the same operation. */
  lemma MergeAgreesWhenUrlSupplied(base: string, pages: seq<Page>, np: NewPage)
    requires np.url != ""
    ensures MergeAsWritten(base, pages, Some(np)) == Merge(base, pages, Some(np))
  {
  }

  /** With a url supplied, the written merge keeps locations unique. */
  lemma MergeAsWrittenKeepsUrlsUnique(base: string, pages: seq<Page>, np: NewPage)
    requires np.url != ""
    requires UniqueUrls(pages)
    ensures UniqueUrls(MergeAsWritten(base, pages, Some(np)))
  {
    MergeAgreesWhenUrlSupplied(base, pages, np);
  }

  /**
   Without a url, the written merge duplicates a page file that is already in
   the directory: the scan has its location, and the appended record gets it
   again.
   */
  lemma MergeAsWrittenDuplicatesFallback(base: string, listing: seq<string>, file: string, priority: string, changefreq: string)
    requires file in listing && IsListedPage(file)
    ensures var pages := MergeAsWritten(base, Scan(base, listing), Some(NewPage("", file, priority, changefreq)));
      !UniqueUrls(pages)
  {
    var scanned := Scan(base, listing);
    var np := NewPage("", file, priority, changefreq);
    ScanLocations(base, listing, file);
    var i :| 0 <= i < |scanned| && scanned[i].url == base + "/" + file;
    assert !HasUrl(scanned, "") by {
      forall j | 0 <= j < |scanned|
        ensures scanned[j].url != ""
      {
        ScanUrlsNonEmpty(base, listing, j);
      }
    }
    var pages := MergeAsWritten(base, scanned, Some(np));
    assert pages[i].url == pages[|scanned|].url;
  }

  /** Every scanned record has a location starting with the origin and a slash. */
  lemma ScanUrlsNonEmpty(base: string, listing: seq<string>, j: int)
    requires 0 <= j < |Scan(base, listing)|
    ensures Scan(base, listing)[j].url != ""
  {
    ScanFollowsListing(base, listing);
  }

  /** What one update produces: the page list and the document written for it. */
  datatype Update = Update(pages: seq<Page>, xml: string)

  /** The update for a merged page list: the list and its document, which reads back as the list. */
  function Written(pages: seq<Page>, lastmod: string -> string): (u: Update)
    ensures u.pages == pages
    ensures VerbatimFields(pages, lastmod) ==> ParseSitemap(u.xml) == Some(EntriesOf(pages, lastmod))
  {
    var xml := GenerateSitemapXml(pages, lastmod);
    assert VerbatimFields(pages, lastmod) ==> ParseSitemap(xml) == Some(EntriesOf(pages, lastmod)) by {
      if VerbatimFields(pages, lastmod) {
        SitemapRoundTrip(pages, lastmod);
      }
    }
    Update(pages, xml)
  }

  /**
   `updateSitemap` as the updater writes it: scan the listing, merge in the
   optional new page with the supplied-url duplicate test, serialize. The
   home record leads; the scanned records come next unchanged; the new page
   is appended exactly when it is given and its supplied url is absent;
   locations stay unique when a url is supplied; and the document reads back
   as the page list.
   */
  function UpdateSitemap(base: string, listing: seq<string>, newPage: Option<NewPage>, lastmod: string -> string): (u: Update)
    ensures |u.pages| >= 1 && u.pages[0] == HomePage(base)
    ensures |Scan(base, listing)| <= |u.pages| <= |Scan(base, listing)| + 1
    ensures u.pages[..|Scan(base, listing)|] == Scan(base, listing)
    ensures |u.pages| == |Scan(base, listing)| <==> newPage.None? || HasUrl(Scan(base, listing), newPage.value.url)
    ensures |u.pages| > |Scan(base, listing)| ==>
      newPage.Some? && u.pages[|Scan(base, listing)|] == Completed(base, newPage.value)
    ensures DistinctEntries(listing) && (newPage.None? || newPage.value.url != "") ==> UniqueUrls(u.pages)
    ensures VerbatimFields(u.pages, lastmod) ==> ParseSitemap(u.xml) == Some(EntriesOf(u.pages, lastmod))
  {
    var scanned := Scan(base, listing);
    assert DistinctEntries(listing) && (newPage.None? || newPage.value.url != "") ==>
      UniqueUrls(MergeAsWritten(base, scanned, newPage)) by {
      if DistinctEntries(listing) && (newPage.None? || newPage.value.url != "") {
        ScanUrlsUnique(base, listing);
        if newPage.Some? {
          MergeAsWrittenKeepsUrlsUnique(base, scanned, newPage.value);
        }
      }
    }
    Written(MergeAsWritten(base, scanned, newPage), lastmod)
  }

  /**
   The update with the corrected merge: the duplicate test uses the location
   the new record would get, so locations stay unique for every new page.
   */
  function UpdateSitemapCorrected(base: string, listing: seq<string>, newPage: Option<NewPage>,
                                  lastmod: string -> string): (u: Update)
    ensures |u.pages| >= 1 && u.pages[0] == HomePage(base)
    ensures |Scan(base, listing)| <= |u.pages| <= |Scan(base, listing)| + 1
    ensures u.pages[..|Scan(base, listing)|] == Scan(base, listing)
    ensures |u.pages| == |Scan(base, listing)| <==>
      newPage.None? || HasUrl(Scan(base, listing), EffectiveUrl(base, newPage.value))
    ensures |u.pages| > |Scan(base, listing)| ==>
      newPage.Some? && u.pages[|Scan(base, listing)|] == Completed(base, newPage.value)
    ensures DistinctEntries(listing) ==> UniqueUrls(u.pages)
    ensures VerbatimFields(u.pages, lastmod) ==> ParseSitemap(u.xml) == Some(EntriesOf(u.pages, lastmod))
  {
    var scanned := Scan(base, listing);
    assert DistinctEntries(listing) ==> UniqueUrls(scanned) by {
      if DistinctEntries(listing) {
        ScanUrlsUnique(base, listing);
      }
    }
    Written(Merge(base, scanned, newPage), lastmod)
  }

  /** With a url supplied, the update as written and the corrected update produce the same result. */
  lemma UpdateSitemapAgreesWhenUrlSupplied(base: string, listing: seq<string>, np: NewPage, lastmod: string -> string)
    requires np.url != ""
    ensures UpdateSitemap(base, listing, Some(np), lastmod) == UpdateSitemapCorrected(base, listing, Some(np), lastmod)
  {
    MergeAgreesWhenUrlSupplied(base, Scan(base, listing), np);
  }

  /**
   The update as written, given a page without a url whose file is already in
   the directory, yields a page list in which two records share a location.
   */
  lemma UpdateSitemapDuplicatesFallback(base: string, listing: seq<string>, file: string, priority: string,
                                        changefreq: string, lastmod: string -> string)
    requires file in listing && IsListedPage(file)
    ensures !UniqueUrls(UpdateSitemap(base, listing, Some(NewPage("", file, priority, changefreq)), lastmod).pages)
  {
    MergeAsWrittenDuplicatesFallback(base, listing, file, priority, changefreq);
  }

  /** The url `addPage` supplies: the bare origin for the home file, else the origin plus the file name. */
  function AddPageUrl(base: string, filename: string): (url: string)
    ensures StartsWith(url, base + "/")
    ensures url == HomePage(base).url <==> filename == HomeFilename || filename == ""
  {
    var url := if filename == HomeFilename then base + "/" else base + "/" + filename;
    assert url[..|base + "/"|] == base + "/";
    assert filename != HomeFilename ==> url[|base + "/"|..] == filename;
    url
  }

  /**
   `addPage`: an update with a new page built from `filename`; `""` leaves
   priority or changefreq at its default. The url is always supplied, so the
   locations stay unique, and a record it appends carries that url and name.
   */
  function AddPage(base: string, listing: seq<string>, filename: string, priority: string, changefreq: string,
                   lastmod: string -> string): (u: Update)
    ensures DistinctEntries(listing) ==> UniqueUrls(u.pages)
    ensures |u.pages| > |Scan(base, listing)| ==>
      u.pages[|Scan(base, listing)|].url == AddPageUrl(base, filename)
      && u.pages[|Scan(base, listing)|].filename == filename
  {
    UpdateSitemap(base, listing, Some(NewPage(AddPageUrl(base, filename), filename, priority, changefreq)), lastmod)
  }

  /**
   Adding a page changes nothing exactly when its location is already taken:
   the home file (or an empty name) maps to the home location, and a page file
   of the listing is already scanned. Otherwise exactly one record is appended,
   at `base + "/" + filename`, with the defaults for missing fields.
   */
  lemma AddPageEffect(base: string, listing: seq<string>, filename: string, priority: string, changefreq: string,
                      lastmod: string -> string)
    ensures var pages := AddPage(base, listing, filename, priority, changefreq, lastmod).pages;
      var scanned := Scan(base, listing);
      var present := filename == HomeFilename || filename == "" || (filename in listing && IsListedPage(filename));
      && (present ==> pages == scanned)
      && (!present ==>
            && |pages| == |scanned| + 1
            && pages[..|scanned|] == scanned
            && pages[|scanned|] == Page(base + "/" + filename, filename,
                                        OrElse(priority, DefaultPriority), OrElse(changefreq, DefaultChangefreq)))
  {
    var name := if filename == HomeFilename then "" else filename;
    assert HomeFilename !in listing || !IsListedPage(HomeFilename);
    ScanLocations(base, listing, name);
  }

  /** Adding the home page again is a no-op: the page list is exactly the scan result. */
  lemma AddHomePageIsNoop(base: string, listing: seq<string>, priority: string, changefreq: string,
                          lastmod: string -> string)
    ensures AddPage(base, listing, HomeFilename, priority, changefreq, lastmod).pages == Scan(base, listing)
  {
    AddPageEffect(base, listing, HomeFilename, priority, changefreq, lastmod);
  }

  /** Adding a page file that is already in the directory leaves the record count unchanged. */
  lemma AddExistingPageKeepsCount(base: string, listing: seq<string>, filename: string, priority: string,
                                  changefreq: string, lastmod: string -> string)
    requires filename in listing && IsListedPage(filename)
    ensures |AddPage(base, listing, filename, priority, changefreq, lastmod).pages| == |Scan(base, listing)|
  {
    AddPageEffect(base, listing, filename, priority, changefreq, lastmod);
  }
}

=== FILE: wrappers.dfy ===
/** The optional value used for the updater's optional arguments and for parse results. */
module Wrappers {

  datatype Option<+T> = None | Some(value: T)
}
